=== FILE: README.md ===
# Lip-sync and expression control, modelled in Dafny

The system animates a VRM character's face from two sources. The first is speech audio. The second is discrete emotion commands.

This project models the two pieces of it that carry logic:

- **`LipSync`** (`src/lipSync/libSync.ts`):
  - `update` turns the analyser's 2048-sample window into a gated "speaking volume". It takes the peak absolute amplitude, squashes it through a logistic curve, and forces anything below 0.1 to 0.
  - `playFromArrayBuffer` either decodes a buffer or reads it as raw PCM16. Raw samples become floats scaled asymmetrically: negatives divide by 32768, the rest by 32767. Any failure is caught, and `onEnded` is then called once.
  - `detectPCM16` is an unused plausibility heuristic.
- **`ExpressionController`** (`src/motion/expressionController.ts`): a small state machine. It holds the current emotion preset, an optional lip-sync entry, and an optional blink collaborator. It writes `setValue(name, weight)` to the expression manager.
  - `playEmotion` zeroes the previous emotion. It then either re-enables blink, or disables blink and schedules the new emotion's weight of 1 after the remaining blink time.
  - `libSync` zeroes the previous lip-sync preset and replaces the entry.
  - `update` writes the lip-sync value damped by 0.5 while the current emotion is neutral, or by 0.25 while a non-neutral emotion is current. The emotion becomes current when `playEmotion` is called, before its weight-1 timer runs.

Modules:

- `Options`: the optional-value type.
- `Pcm16` (`pcm16.dfy`): bytes to int16 and back (the `Int16Array` view), and int16 to float.
- `LipSync` (`lip_sync.dfy`): the envelope, the playback router and the heuristic.
- `ExpressionController` (`expression_controller.dfy`): the controller.
  - The controller is an immutable record.
  - Sink writes go to an append-only log.
  - `setTimeout` callbacks sit in a list of pending writes that is never cancelled. `Fire` runs one of them, in any order.
  - Calls on the blink collaborator go to their own log.
  - `setEnable(false)`'s returned remaining time is a parameter.
  - `SinkWeight` gives the weight the controller's own writes leave for a name, with the last write winning.
- `EmotionTimers` (`emotion_timers.dfy`): the stale-timer finding below, and its correction.

Modelling choices:

- Samples are exact reals.
- The logistic `1 / (1 + exp(-45a + 5))` is a function-valued parameter. `IsSquash` states what the model assumes of it: values in (0, 1), never decreasing. `QuietAtSilence` states that its value at 0 is below the gate (1 / (1 + e^5) ≈ 0.0067).
- `detectPCM16` compares `nonZeroCount > min(1000, n) * 0.1` in doubles. The model uses the exact `10 * nonZeroCount > n`. The two agree for every integer count and every n ≤ 1000:
  - the double nearest 0.1 is slightly above 0.1;
  - so `n * 0.1` never rounds below an integer n/10;
  - otherwise it stays far closer to n/10 than to any integer.

Three behaviours of the code that the model keeps:

- The raw path also fails on an odd byte length, because `new Int16Array` throws. The model has this as its own error case.
- The heuristic's "values within 16-bit range" test can never fail on int16 values.
- Superseded emotion timers do not leave the latest emotion alone on screen (see Findings).

## Model

| member | source | states |
|---|---|---|
| LipSync.Peak | src/lipSync/libSync.ts:20-23 | The peak is ≥ 0 and ≥ every \|sample\|. It equals some sample's absolute value unless it is 0. |
| LipSync.PeakZeroIffSilent | src/lipSync/libSync.ts:20-23 | The peak is 0 exactly when every sample is 0. |
| LipSync.PeakMonotone | src/lipSync/libSync.ts:20-23 | A window that is sample-wise at least as loud has at least the same peak. |
| LipSync.Gate | src/lipSync/libSync.ts:26 | The gated value is either exactly 0 or at least 0.1. Values at or above 0.1 pass unchanged. |
| LipSync.GateMonotone | src/lipSync/libSync.ts:26 | The gate preserves order. |
| LipSync.Update | src/lipSync/libSync.ts:17-31 | The 2048-sample scan returns gate(squash(peak)). The result is 0 exactly when the squashed peak is below 0.1, and otherwise ≥ 0.1. |
| LipSync.VolumeRange | src/lipSync/libSync.ts:25-26 | If the squash lies in (0,1), the volume is 0 or in [0.1, 1). |
| LipSync.SilentWindowIsZero | src/lipSync/libSync.ts:20-26 | An all-zero window yields exactly 0. |
| LipSync.VolumeMonotone | src/lipSync/libSync.ts:20-26 | If the squash never decreases, a sample-wise louder window never yields a lower volume. |
| Pcm16.FromLittleEndian | src/lipSync/libSync.ts:51 | A byte pair's int16 is negative exactly when the high byte's top bit is set. Modulo 2^16 it equals lo + 256·hi, so its low byte is recovered modulo 256. |
| Pcm16.ToLittleEndian | src/lipSync/libSync.ts:51 | The two bytes of an int16 read back as lo + 256·hi ≡ the int16 modulo 2^16. The high byte's top bit is set exactly when the int16 is negative. |
| Pcm16.DecodeEncodeSample | src/lipSync/libSync.ts:51 | Encoding an int16 little-endian and reading it back gives the same int16. |
| Pcm16.EncodeDecodeSample | src/lipSync/libSync.ts:51 | Reading a byte pair and re-encoding it gives the same bytes. |
| Pcm16.Int16View | src/lipSync/libSync.ts:51 | The Int16Array view exists exactly for even byte lengths and has byteLength/2 samples. |
| Pcm16.ViewOfBytes | src/lipSync/libSync.ts:51 | Viewing the bytes of any int16 sequence gives back that sequence. |
| Pcm16.BytesOfView | src/lipSync/libSync.ts:51 | Every even-length buffer is exactly the bytes of its own view. |
| Pcm16.ToFloat | src/lipSync/libSync.ts:55-56 | Every int16 maps into [-1, 1], preserving sign and zero. -32768 maps to -1 and 32767 maps to 1. |
| Pcm16.ToFloatStrictlyIncreasing | src/lipSync/libSync.ts:55-56 | The conversion is strictly increasing, hence monotone and injective. |
| Pcm16.QuantizeToFloat | src/lipSync/libSync.ts:55-56 | Quantizing a converted sample on the same scale recovers the int16 exactly. |
| Pcm16.ToFloatQuantizeWithinStep | src/lipSync/libSync.ts:55-56 | Quantizing any value in [-1, 1] and converting back lands at most one quantization step below it. |
| LipSync.ConvertPcm16 | src/lipSync/libSync.ts:53-57 | The loop yields one float per int16, element i being the conversion of sample i, all in [-1, 1] with sign kept. |
| LipSync.PlayFromArrayBuffer | src/lipSync/libSync.ts:39-84 | `onEnded` runs exactly once when given. Non-ArrayBuffer, empty, odd-length raw input and decode failures all fail with nothing played. Playback starts exactly when the input is valid and the audio graph works. The raw path's buffer has one channel of byteLength/2 converted samples at the given rate. |
| LipSync.DetectPcm16 | src/lipSync/libSync.ts:93-118 | The heuristic is false for odd lengths. Otherwise it says exactly whether more than 10% of the first min(1000, n) samples are non-zero, because the range test cannot fail. |
| LipSync.SilenceIsNotPcm16 | src/lipSync/libSync.ts:98-117 | An empty or all-zero buffer is never judged PCM16. |
| LipSync.ShortBufferWithSignalIsPcm16 | src/lipSync/libSync.ts:107-117 | Below ten samples, a single non-zero sample makes the verdict true. |
| LipSync.DetectIgnoresTail | src/lipSync/libSync.ts:100-115 | Bytes beyond the first 2000 (samples beyond index 999) never change the verdict. |
| ExpressionController.New | src/motion/expressionController.ts:19-27 | A fresh controller has an expression manager (and blink) exactly when the model it is built from has one. It starts with no `playEmotion` calls counted, is neutral, has no lip-sync entry, has written, scheduled and called nothing, and satisfies the controller invariant. |
| ExpressionController.EmotionDelayMs | src/motion/expressionController.ts:40-44 | With a blink collaborator, the emotion delay is the remaining blink time × 1000 ms. Without one, it is 0. It is never negative when the remaining blink time is not negative. |
| ExpressionController.PlayEmotion | src/motion/expressionController.ts:29-45 | The only immediate write zeroes the previous emotion, and it happens exactly when that emotion was non-neutral and a manager exists. The new preset becomes current at once. Neutral re-enables blink and schedules nothing. Any other preset disables blink and appends one timer setting it to 1 after the blink delay, keeping the earlier timers. The lip-sync entry is kept. |
| ExpressionController.LibSync | src/motion/expressionController.ts:47-55 | The old preset is written as 0 exactly when an entry existed (and a manager exists). The entry becomes (preset, value). Emotion, timers and blink are untouched. |
| ExpressionController.Update | src/motion/expressionController.ts:57-69 | Blink is advanced when it exists. Exactly one write goes out when there is an entry and a manager exists: (preset, value·0.5) under neutral, (preset, value·0.25) otherwise. Without an entry or without a manager nothing is written. |
| ExpressionController.Fire | src/motion/expressionController.ts:42-44 | A timer that runs is removed and writes its preset's weight, if a manager exists. Nothing else changes. |
| ExpressionController.LipSyncWeightBounds | src/motion/expressionController.ts:63-66 | For a value in [0,1] the lip-sync weight lies in [0, 0.5], and in [0, 0.25] while a non-neutral emotion is current. That is half the neutral weight. |
| ExpressionController.PlayEmotionZeroesPrevious | src/motion/expressionController.ts:30-32 | After switching emotion, the sink holds 0 for the previous non-neutral emotion. |
| ExpressionController.LibSyncZeroesPrevious | src/motion/expressionController.ts:48-50 | After a new lip-sync entry, the sink holds 0 for the old entry's preset. |
| ExpressionController.UpdateDampsLipSync | src/motion/expressionController.ts:62-68 | After `update`, the sink holds the damped weight for the lip-sync preset: within [0, 0.5], and within [0, 0.25] while a non-neutral emotion is current. |
| ExpressionController.UpdateWithoutLipSyncIsSilent | src/motion/expressionController.ts:62-68 | Without a lip-sync entry, `update` writes nothing. |
| ExpressionController.NeutralTwiceIsQuiet | src/motion/expressionController.ts:34-38 | A second `playEmotion('neutral')` adds no writes and no timers. |
| ExpressionController.StepPreservesValid | src/motion/expressionController.ts:29-69 | Every public call and every timer run keeps the controller invariant and only appends to the write log. |
| ExpressionController.RunPreservesValid | src/motion/expressionController.ts:29-69 | Any sequence of calls and timer runs keeps the invariant and only appends to the write log. |
| ExpressionController.NoManagerNoWrites | src/motion/expressionController.ts:23-44 | Without an expression manager, no write ever reaches the sink and every emotion timer has delay 0. |
| ExpressionController.NoManagerStillTracksState | src/motion/expressionController.ts:21-55 | Without a manager, emotion and lip-sync state still follow the calls. |
| ExpressionController.LipSyncUnderEmotionScenario | src/motion/expressionController.ts:57-68 | 0.8 on 'aa' writes 0.4 under neutral, and 0.2 after switching to 'angry'. |
| ExpressionController.LipSyncHandOverScenario | src/motion/expressionController.ts:47-68 | Moving from 'aa' to 'ih' writes 'aa' = 0 before 'ih' = 0.3. |
| ExpressionController.DelayedEmotionScenario | src/motion/expressionController.ts:40-44 | 'happy' with 0.2 s of blink left writes nothing at once and schedules a 200 ms timer. When that timer runs, 'happy' is 1. |
| EmotionTimers.StaleTimerShowsTwoEmotions | src/motion/expressionController.ts:29-45 | As written: 'happy' (0.2 s blink), then 'angry', then both timers run. The result is 'angry' and 'happy' both at 1. |
| EmotionTimers.StaleTimerOutlivesLaterEmotions | src/motion/expressionController.ts:29-45 | As written: 'happy' (0.2 s blink), then neutral, then the stale 'happy' timer runs. 'happy' then stays at 1 through later 'angry' and 'sad' calls and their timers. |
| EmotionTimers.FireGuarded | src/motion/expressionController.ts:42-44 | Corrected timer: a superseded timer writes nothing. A live one writes its preset's weight when there is a manager. If live timers name the current emotion, the only possible write is for that emotion. |
| EmotionTimers.StepGuardedKeepsTimersCurrent | src/motion/expressionController.ts:29-69 | Corrected: every step keeps live timers naming the current emotion. |
| EmotionTimers.StepGuardedKeepsOneEmotion | src/motion/expressionController.ts:29-69 | Corrected: every step keeps the controller's own writes at weight 0 for all presets except the current emotion, neutral and the mouth shapes. |
| EmotionTimers.GuardedRunShowsOneEmotion | src/motion/expressionController.ts:29-69 | Corrected: across any run, at most one emotion is visible. |
| EmotionTimers.FreshControllerShowsNoEmotion | src/motion/expressionController.ts:19-27 | A fresh controller satisfies the corrected invariants. |
| EmotionTimers.GuardedTimerKeepsHappyHidden | src/motion/expressionController.ts:29-45 | Corrected, on the same calls as the counterexample: 'happy' stays at 0 and 'angry' is 1. |

## Findings

| source | as written | input that shows it | evidently intended | confidence | as-written member | corrected member |
|---|---|---|---|---|---|---|
| src/motion/expressionController.ts:40-44 | The `setTimeout` callback always sets its captured preset to 1, even after a later `playEmotion` replaced that emotion. The zeroing at lines 30-32 has already run by then. | Blink reports 0.2 s left. Call `playEmotion('happy')`, then `playEmotion('angry')` within 200 ms. The 'angry' timer runs, then the 'happy' timer: both end at weight 1. | Only the latest emotion is shown. Lines 30-32 zero the previous emotion for this reason. | medium; not executed | EmotionTimers.StaleTimerShowsTwoEmotions | EmotionTimers.GuardedRunShowsOneEmotion |

The same stale timer can also run after a switch to neutral. Each later `playEmotion` zeroes only the emotion current when it is called. So 'happy' then stays at 1 for good (`EmotionTimers.StaleTimerOutlivesLaterEmotions`).

The correction stamps each timer with the number of the `playEmotion` call that scheduled it. A timer writes only if no later `playEmotion` has happened. All other operations are unchanged. The main model (`ExpressionController.Fire`, `Run`) keeps the code's behaviour.

## Left out

- The logistic `Math.exp` squash is a parameter with stated assumptions (`IsSquash`, `QuietAtSilence`), not exact arithmetic. The model does not compute transcendental functions.
- Float32 storage and double arithmetic are modelled as exact reals.
- The raw path's `new Int16Array(buffer)` (src/lipSync/libSync.ts:51) reads samples in the platform's byte order. The model fixes little-endian, the order of every mainstream platform; a big-endian host is not modelled.
- LipSync.VolumeRange: the range [0.1, 1) holds for exact reals only. In doubles, `1 / (1 + exp(-45a + 5))` rounds to exactly 1.0 once the peak a is above about 0.93, so `update` returns 1 for loud speech.
- The defaults of `playFromArrayBuffer` (`isNeedDecode = true`, `sampleRate = 24000`, src/lipSync/libSync.ts:36-37) are not modelled. `LipSync.PlayFromArrayBuffer` takes both as explicit arguments.
- Web Audio is not modelled: `AudioContext`, the analyser and its `getFloatTimeDomainData`, `decodeAudioData`, `createBuffer`, buffer sources, `connect`/`start` and the `ended` event. In their place:
  - the analyser window is a parameter of `LipSync.Update`;
  - the decoder's answer is the `decode` parameter;
  - any throw from `createBuffer` on the raw path (an unsupported `sampleRate`, say) or from creating, connecting or starting the source is the `graphFails` flag;
  - the `ended` event is counted as one call of `onEnded` in `CompletionCalls`.
- `console.error` logging is not modelled.
- LipSync.PlayFromArrayBuffer: does not state that a started buffer is routed to both speakers and analyser, because the audio graph is not modelled. It treats the async method as one step.
- `playFromURL` is network I/O (`fetch`) followed by an un-awaited call to `playFromArrayBuffer`.
- The blink and look-at collaborators (`./blink`, `./lookat`) are not part of this model. Calls on blink are recorded, and `setEnable(false)`'s answer is a parameter. The look-at object is created by the constructor and never used by the modelled methods.
- ExpressionController.Fire: timers may run in any order. Their delays are recorded but wall-clock time and the event loop are not modelled.
- The blink collaborator is built with the same expression manager (src/motion/expressionController.ts:25) and writes the blink presets itself when `update` advances it. Those writes are not logged. So `SinkWeight` and `OneEmotionVisible` speak only of the controller's own writes and say nothing about the blink presets.
- Preset names are plain strings. The closed set of VRM preset names is not enforced.
- `src/main.ts` (scene and loader plumbing) and `src/motion/emoteController.ts` (pure forwarding to `ExpressionController`) are not part of this model.

=== FILE: emotion_timers.dfy ===
/** The emotion timers of `ExpressionController.playEmotion`, as written and corrected.

    As written, a timer scheduled by an earlier `playEmotion` still sets its preset to 1
    after a later `playEmotion` has installed another emotion (or neutral): the zeroing of
    the previous emotion at the start of each call runs before the stale timer does, so
    two emotions can end up at full weight. The correction stamps each timer with the
    number of the `playEmotion` call that scheduled it and lets a timer write only while
    no later call has happened; every other operation is unchanged. */
module EmotionTimers {
  import opened Options
  import opened ExpressionController

  /** The controller's own writes leave weight 0 for every preset other than the current
      emotion, neutral and the mouth shapes the lip-sync channel may use: at most one
      emotion is visible. */
  ghost predicate OneEmotionVisible(c: Controller, mouth: set<Preset>)
  {
    && (c.lipSync.Some? ==> c.lipSync.value.preset in mouth)
    && forall n :: n != c.emotion && n != Neutral && n !in mouth ==> SinkWeight(c.writes, n) == 0.0
  }

  /** Live timers (stamped by the latest `playEmotion`) name the current emotion. */
  ghost predicate LiveTimersNameCurrent(c: Controller)
  {
    forall k :: 0 <= k < |c.pending| && c.pending[k].ticket == c.transitions ==> c.pending[k].name == c.emotion
  }

  lemma SinkWeightAppend(w: seq<Write>, m: Preset, x: real, n: Preset)
    ensures SinkWeight(w + [Write(m, x)], n) == if m == n then x else SinkWeight(w, n)
  {
    assert (w + [Write(m, x)])[..|w|] == w;
  }

  /* ================================================================ as written */

  /** A superseded 'happy' timer runs after 'angry' is shown: both end at weight 1. */
  lemma StaleTimerShowsTwoEmotions()
    ensures var c := Run(New(true), [PlayEmotionCmd("happy", 0.2), PlayEmotionCmd("angry", 0.0), FireCmd(1), FireCmd(0)]);
            && c.emotion == "angry"
            && SinkWeight(c.writes, "angry") == 1.0
            && SinkWeight(c.writes, "happy") == 1.0
            && !OneEmotionVisible(c, {})
  {
    var c1 := PlayEmotion(New(true), "happy", 0.2);
    var c2 := PlayEmotion(c1, "angry", 0.0);
    assert c2.pending == [Deferred(200.0, "happy", 1.0, 1), Deferred(0.0, "angry", 1.0, 2)];
    var c3 := Fire(c2, 1);
    var c4 := Fire(c3, 0);
    assert c4.writes == [Write("happy", 0.0), Write("angry", 1.0), Write("happy", 1.0)];
    var c := Run(New(true), [PlayEmotionCmd("happy", 0.2), PlayEmotionCmd("angry", 0.0), FireCmd(1), FireCmd(0)]);
    assert c == c4;
    assert SinkWeight(c.writes, "angry") == 1.0;
    assert SinkWeight(c.writes, "happy") == 1.0;
  }

  /** The controller after 'happy' (0.2 s of blink left), neutral and the stale timer. */
  lemma HappyNeutralStaleTimer()
    ensures Run(New(true), [PlayEmotionCmd("happy", 0.2), PlayEmotionCmd(Neutral, 0.0), FireCmd(0)])
            == Controller(true, Neutral, None, 2, [Write("happy", 0.0), Write("happy", 1.0)], [],
                          [SetEnable(false), SetEnable(true)])
  {
    var first := [PlayEmotionCmd("happy", 0.2), PlayEmotionCmd(Neutral, 0.0), FireCmd(0)];
    var c1 := Step(New(true), first[0]);
    var c2 := Step(c1, first[1]);
    assert c2.pending == [Deferred(200.0, "happy", 1.0, 1)];
    var c3 := Step(c2, first[2]);
    assert Run(c2, first[2..]) == c3;
    assert Run(c1, first[1..]) == c3 by { assert first[1..][1..] == first[2..]; }
  }

  /** From there, 'angry' and 'sad' each zero the emotion before them and set their own
      preset to 1; neither touches 'happy'. */
  lemma AngryThenSadAfterStaleTimer()
    ensures Run(Controller(true, Neutral, None, 2, [Write("happy", 0.0), Write("happy", 1.0)], [],
                           [SetEnable(false), SetEnable(true)]),
                [PlayEmotionCmd("angry", 0.0), FireCmd(0), PlayEmotionCmd("sad", 0.0), FireCmd(0)])
            == Controller(true, "sad", None, 4,
                          [Write("happy", 0.0), Write("happy", 1.0), Write("angry", 1.0),
                           Write("angry", 0.0), Write("sad", 1.0)], [],
                          [SetEnable(false), SetEnable(true), SetEnable(false), SetEnable(false)])
  {
    var mid := Controller(true, Neutral, None, 2, [Write("happy", 0.0), Write("happy", 1.0)], [],
                          [SetEnable(false), SetEnable(true)]);
    var tail := [PlayEmotionCmd("angry", 0.0), FireCmd(0), PlayEmotionCmd("sad", 0.0), FireCmd(0)];
    var c1 := Step(mid, tail[0]);
    assert c1.pending == [Deferred(0.0, "angry", 1.0, 3)];
    var c2 := Step(c1, tail[1]);
    var c3 := Step(c2, tail[2]);
    assert c3.pending == [Deferred(0.0, "sad", 1.0, 4)];
    var c4 := Step(c3, tail[3]);
    assert Run(c3, tail[3..]) == c4;
    assert Run(c2, tail[2..]) == c4 by { assert tail[2..][1..] == tail[3..]; }
    assert Run(c1, tail[1..]) == c4 by { assert tail[1..][1..] == tail[2..]; }
  }

  /** A superseded 'happy' timer runs after a switch to neutral. 'happy' then stays at 1
      through later emotions and their timers, because each `playEmotion` zeroes only the
      emotion that is current when it is called. */
  lemma StaleTimerOutlivesLaterEmotions()
    ensures var c := Run(New(true), [PlayEmotionCmd("happy", 0.2), PlayEmotionCmd(Neutral, 0.0), FireCmd(0)]
                                    + [PlayEmotionCmd("angry", 0.0), FireCmd(0), PlayEmotionCmd("sad", 0.0), FireCmd(0)]);
            && c.emotion == "sad"
            && SinkWeight(c.writes, "sad") == 1.0
            && SinkWeight(c.writes, "happy") == 1.0
            && !OneEmotionVisible(c, {})
  {
    HappyNeutralStaleTimer();
    AngryThenSadAfterStaleTimer();
    RunConcat(New(true), [PlayEmotionCmd("happy", 0.2), PlayEmotionCmd(Neutral, 0.0), FireCmd(0)],
              [PlayEmotionCmd("angry", 0.0), FireCmd(0), PlayEmotionCmd("sad", 0.0), FireCmd(0)]);
    var w := [Write("happy", 0.0), Write("happy", 1.0), Write("angry", 1.0), Write("angry", 0.0), Write("sad", 1.0)];
    assert SinkWeight(w, "sad") == 1.0;
    assert SinkWeight(w[..2], "happy") == 1.0;
    assert SinkWeight(w[..3], "happy") == 1.0 by { assert w[..3][..2] == w[..2]; }
    assert SinkWeight(w[..4], "happy") == 1.0 by { assert w[..4][..3] == w[..3]; }
    assert SinkWeight(w, "happy") == 1.0 by { assert w[..4] == w[..|w| - 1]; }
  }

  /* ================================================================ corrected */

  /** A timer runs, but writes only if no `playEmotion` followed the one that scheduled it. */
  function FireGuarded(c: Controller, k: nat): (d: Controller)
    requires k < |c.pending|
    ensures d.pending == c.pending[..k] + c.pending[k + 1..]
    ensures d.emotion == c.emotion && d.lipSync == c.lipSync && d.blinkCalls == c.blinkCalls
    ensures d.hasExpressionManager == c.hasExpressionManager && d.transitions == c.transitions
    ensures c.pending[k].ticket != c.transitions ==> d.writes == c.writes
    ensures c.pending[k].ticket == c.transitions ==>
              d.writes == c.writes + (if c.hasExpressionManager then [Write(c.pending[k].name, c.pending[k].weight)] else [])
    ensures LiveTimersNameCurrent(c) ==>
              d.writes == c.writes
              || (c.hasExpressionManager && d.writes == c.writes + [Write(c.emotion, c.pending[k].weight)])
  {
    if c.pending[k].ticket == c.transitions then Fire(c, k)
    else c.(pending := c.pending[..k] + c.pending[k + 1..])
  }

  function StepGuarded(c: Controller, cmd: Command): (d: Controller)
  {
    match cmd
    case FireCmd(k) => if k < |c.pending| then FireGuarded(c, k) else c
    case _ => Step(c, cmd)
  }

  function RunGuarded(c: Controller, cmds: seq<Command>): (d: Controller)
    decreases |cmds|
  {
    if |cmds| == 0 then c else RunGuarded(StepGuarded(c, cmds[0]), cmds[1..])
  }

  /** Every lip-sync command uses one of the mouth shapes. */
  predicate MouthOnly(cmds: seq<Command>, mouth: set<Preset>)
  {
    forall i :: 0 <= i < |cmds| ==> cmds[i].LibSyncCmd? ==> cmds[i].preset in mouth
  }

  /** One guarded step keeps the controller valid and its live timers current. */
  lemma StepGuardedKeepsTimersCurrent(c: Controller, cmd: Command)
    requires Valid(c) && LiveTimersNameCurrent(c)
    ensures Valid(StepGuarded(c, cmd)) && LiveTimersNameCurrent(StepGuarded(c, cmd))
  {
    match cmd
    case FireCmd(k) =>
      if k < |c.pending| {
        var d := StepGuarded(c, cmd);
        forall j | 0 <= j < |d.pending|
          ensures d.pending[j] in c.pending
        {
          if j < k { assert d.pending[j] == c.pending[j]; }
          else { assert d.pending[j] == c.pending[j + 1]; }
        }
        if c.pending[k].ticket == c.transitions {
          StepPreservesValid(c, cmd);
        }
      }
    case PlayEmotionCmd(p, r) =>
      StepPreservesValid(c, cmd);
    case LibSyncCmd(p, v) =>
    case UpdateCmd(dt) =>
  }

  /** One guarded step with a mouth-shape lip-sync keeps at most one emotion visible. */
  lemma StepGuardedKeepsOneEmotion(c: Controller, cmd: Command, mouth: set<Preset>)
    requires Valid(c) && LiveTimersNameCurrent(c) && OneEmotionVisible(c, mouth)
    requires cmd.LibSyncCmd? ==> cmd.preset in mouth
    ensures OneEmotionVisible(StepGuarded(c, cmd), mouth)
  {
    var d := StepGuarded(c, cmd);
    forall n | n != d.emotion && n != Neutral && n !in mouth
      ensures SinkWeight(d.writes, n) == 0.0
    {
      match cmd
      case PlayEmotionCmd(p, r) =>
        if c.hasExpressionManager && c.emotion != Neutral {
          assert d.writes == c.writes + [Write(c.emotion, 0.0)];
          SinkWeightAppend(c.writes, c.emotion, 0.0, n);
        } else {
          assert d.writes == c.writes;
        }
      case LibSyncCmd(p, v) =>
        if c.hasExpressionManager && c.lipSync.Some? {
          SinkWeightAppend(c.writes, c.lipSync.value.preset, 0.0, n);
        }
      case UpdateCmd(dt) =>
        if c.hasExpressionManager && c.lipSync.Some? {
          SinkWeightAppend(c.writes, c.lipSync.value.preset, LipSyncWeight(c.emotion, c.lipSync.value.value), n);
        }
      case FireCmd(k) =>
        if k < |c.pending| && d.writes != c.writes {
          SinkWeightAppend(c.writes, c.emotion, c.pending[k].weight, n);
        }
    }
  }

  /** Corrected: from a fresh controller, whatever commands arrive and in whatever order
      the timers run, only the current emotion (besides neutral and the mouth shapes) can
      hold a non-zero weight. */
  lemma {:induction false} GuardedRunShowsOneEmotion(c: Controller, cmds: seq<Command>, mouth: set<Preset>)
    requires Valid(c) && LiveTimersNameCurrent(c) && OneEmotionVisible(c, mouth)
    requires MouthOnly(cmds, mouth)
    ensures OneEmotionVisible(RunGuarded(c, cmds), mouth)
    ensures Valid(RunGuarded(c, cmds)) && LiveTimersNameCurrent(RunGuarded(c, cmds))
    decreases |cmds|
  {
    if |cmds| > 0 {
      StepGuardedKeepsTimersCurrent(c, cmds[0]);
      StepGuardedKeepsOneEmotion(c, cmds[0], mouth);
      assert MouthOnly(cmds[1..], mouth) by {
        forall i | 0 <= i < |cmds| - 1
          ensures cmds[1..][i].LibSyncCmd? ==> cmds[1..][i].preset in mouth
        {
          assert cmds[1..][i] == cmds[i + 1];
        }
      }
      GuardedRunShowsOneEmotion(StepGuarded(c, cmds[0]), cmds[1..], mouth);
    }
  }

  /** A fresh controller satisfies the corrected invariants. */
  lemma FreshControllerShowsNoEmotion(hasExpressionManager: bool, mouth: set<Preset>)
    ensures Valid(New(hasExpressionManager)) && LiveTimersNameCurrent(New(hasExpressionManager))
    ensures OneEmotionVisible(New(hasExpressionManager), mouth)
  {
  }

  /** Corrected, on the same calls as `StaleTimerShowsTwoEmotions`: 'happy' stays at 0. */
  lemma GuardedTimerKeepsHappyHidden()
    ensures var c := RunGuarded(New(true), [PlayEmotionCmd("happy", 0.2), PlayEmotionCmd("angry", 0.0), FireCmd(1), FireCmd(0)]);
            && c.emotion == "angry"
            && SinkWeight(c.writes, "angry") == 1.0
            && SinkWeight(c.writes, "happy") == 0.0
  {
    var c1 := PlayEmotion(New(true), "happy", 0.2);
    var c2 := PlayEmotion(c1, "angry", 0.0);
    assert c2.pending == [Deferred(200.0, "happy", 1.0, 1), Deferred(0.0, "angry", 1.0, 2)];
    var c3 := FireGuarded(c2, 1);
    var c4 := FireGuarded(c3, 0);
    assert c4.writes == [Write("happy", 0.0), Write("angry", 1.0)];
    var c := RunGuarded(New(true), [PlayEmotionCmd("happy", 0.2), PlayEmotionCmd("angry", 0.0), FireCmd(1), FireCmd(0)]);
    assert c == c4;
    assert SinkWeight(c.writes, "happy") == 0.0;
  }
}

=== FILE: expression_controller.dfy ===
/** `ExpressionController`: the current emotion preset, the optional lip-sync entry,
    and the optional blink collaborator, as an immutable state record.

    Every effect on the outside world is recorded: `setValue(name, weight)` calls on the
    expression manager go to an append-only log, `setTimeout` callbacks go to a list of
    pending writes that is never cancelled, and calls on the blink collaborator go to a
    log of their own. The blink collaborator and the expression manager exist together
    (both come from `vrm.expressionManager`), so one flag stands for both. */
module ExpressionController {
  import opened Options

  /** A VRM expression preset name. */
  type Preset = string

  const Neutral: Preset := "neutral"

  /** Damping of the lip-sync weight while the current emotion is neutral, and while a
      non-neutral emotion is current. */
  const NeutralLipSyncScale: real := 0.5
  const EmotionLipSyncScale: real := 0.25

  /** The lip-sync entry `{ preset, value }`. */
  datatype LipSyncEntry = LipSyncEntry(preset: Preset, value: real)

  /** One `setValue(name, weight)` call reaching the expression manager. */
  datatype Write = Write(name: Preset, weight: real)

  /** A `setTimeout` callback not yet run: after `delayMs` it sets `name` to `weight`.
      `ticket` numbers the `playEmotion` call that scheduled it; the callback itself
      does not look at it. */
  datatype Deferred = Deferred(delayMs: real, name: Preset, weight: real, ticket: nat)

  /** A call on the blink collaborator. */
  datatype BlinkCall = SetEnable(enabled: bool) | Advance(delta: real)

  datatype Controller = Controller(
    hasExpressionManager: bool,
    emotion: Preset,
    lipSync: Option<LipSyncEntry>,
    transitions: nat,          // number of playEmotion calls so far
    writes: seq<Write>,        // every setValue the controller itself made on the manager
    pending: seq<Deferred>,    // scheduled callbacks that have not run
    blinkCalls: seq<BlinkCall> // every call on the blink collaborator
  )

  /** `_expressionManager?.setValue(name, weight)`: recorded only when there is a manager. */
  function SetValue(c: Controller, name: Preset, weight: real): (d: Controller)
  {
    if c.hasExpressionManager then c.(writes := c.writes + [Write(name, weight)]) else c
  }

  /** `_autoBlink?.…`: recorded only when there is a blink collaborator. */
  function CallBlink(c: Controller, call: BlinkCall): (d: Controller)
  {
    if c.hasExpressionManager then c.(blinkCalls := c.blinkCalls + [call]) else c
  }

  /** What every reachable controller satisfies: without an expression manager nothing
      was ever written, no blink call was made and every timer has delay 0; every timer
      sets a non-neutral preset to 1 and was scheduled by a call that already happened. */
  ghost predicate Valid(c: Controller)
  {
    && (!c.hasExpressionManager ==> c.writes == [] && c.blinkCalls == [])
    && forall k :: 0 <= k < |c.pending| ==>
         && c.pending[k].name != Neutral
         && c.pending[k].weight == 1.0
         && 0 < c.pending[k].ticket <= c.transitions
         && (!c.hasExpressionManager ==> c.pending[k].delayMs == 0.0)
  }

  /** The constructor: neutral, no lip-sync entry, nothing written or scheduled. */
  function New(hasExpressionManager: bool): (c: Controller)
    ensures Valid(c)
    ensures c.hasExpressionManager == hasExpressionManager && c.transitions == 0
    ensures c.emotion == Neutral && c.lipSync == None
    ensures c.writes == [] && c.pending == [] && c.blinkCalls == []
  {
    Controller(hasExpressionManager, Neutral, None, 0, [], [], [])
  }

  /** The delay of the emotion's timer: `(_autoBlink?.setEnable(false) || 0) * 1000`,
      where `blinkRemaining` is what `setEnable(false)` returns. */
  function EmotionDelayMs(c: Controller, blinkRemaining: real): (ms: real)
    ensures !c.hasExpressionManager ==> ms == 0.0
    ensures c.hasExpressionManager ==> ms == blinkRemaining * 1000.0
    ensures 0.0 <= blinkRemaining ==> 0.0 <= ms
  {
    (if c.hasExpressionManager && blinkRemaining != 0.0 then blinkRemaining else 0.0) * 1000.0
  }

  /** `playEmotion(preset)`. */
  function PlayEmotion(c: Controller, preset: Preset, blinkRemaining: real): (d: Controller)
    ensures d.emotion == preset && d.lipSync == c.lipSync
    ensures d.hasExpressionManager == c.hasExpressionManager
    ensures d.transitions == c.transitions + 1
    // the only immediate write zeroes the previous emotion, when that one was not neutral
    ensures |c.writes| <= |d.writes| <= |c.writes| + 1 && d.writes[..|c.writes|] == c.writes
    ensures |d.writes| == |c.writes| + 1 <==> c.hasExpressionManager && c.emotion != Neutral
    ensures |d.writes| == |c.writes| + 1 ==> d.writes[|c.writes|] == Write(c.emotion, 0.0)
    // neutral re-enables blink and schedules nothing; any other preset disables blink and
    // schedules one write of 1, after the remaining blink time, behind the earlier timers
    ensures preset == Neutral ==> d.pending == c.pending
    ensures preset != Neutral ==>
              d.pending == c.pending + [Deferred(EmotionDelayMs(c, blinkRemaining), preset, 1.0, d.transitions)]
    ensures d.blinkCalls == c.blinkCalls + (if c.hasExpressionManager then [SetEnable(preset == Neutral)] else [])
  {
    var zeroed := if c.emotion != Neutral then SetValue(c, c.emotion, 0.0) else c;
    if preset == Neutral then
      CallBlink(zeroed, SetEnable(true)).(emotion := preset, transitions := c.transitions + 1)
    else
      var delayMs := EmotionDelayMs(c, blinkRemaining);
      var blinked := CallBlink(zeroed, SetEnable(false));
      blinked.(emotion := preset, transitions := c.transitions + 1,
               pending := blinked.pending + [Deferred(delayMs, preset, 1.0, c.transitions + 1)])
  }

  /** `libSync(preset, value)`. */
  function LibSync(c: Controller, preset: Preset, value: real): (d: Controller)
    ensures d.lipSync == Some(LipSyncEntry(preset, value))
    ensures d.emotion == c.emotion && d.pending == c.pending && d.blinkCalls == c.blinkCalls
    ensures d.hasExpressionManager == c.hasExpressionManager && d.transitions == c.transitions
    ensures |c.writes| <= |d.writes| <= |c.writes| + 1 && d.writes[..|c.writes|] == c.writes
    ensures |d.writes| == |c.writes| + 1 <==> c.hasExpressionManager && c.lipSync.Some?
    ensures |d.writes| == |c.writes| + 1 ==> d.writes[|c.writes|] == Write(c.lipSync.value.preset, 0.0)
  {
    var zeroed := if c.lipSync.Some? then SetValue(c, c.lipSync.value.preset, 0.0) else c;
    zeroed.(lipSync := Some(LipSyncEntry(preset, value)))
  }

  /** The weight `update` writes for a lip-sync value: halved while the current emotion
      is neutral, quartered while a non-neutral emotion is current (even before its
      weight-1 timer has run). */
  function LipSyncWeight(emotion: Preset, value: real): (w: real)
  {
    if emotion == Neutral then value * NeutralLipSyncScale else value * EmotionLipSyncScale
  }

  /** A lip-sync value in [0, 1] gives a weight in [0, 0.5], and in [0, 0.25] while a
      non-neutral emotion is current; that weight is half the neutral one. */
  lemma LipSyncWeightBounds(emotion: Preset, value: real)
    requires 0.0 <= value <= 1.0
    ensures 0.0 <= LipSyncWeight(emotion, value) <= 0.5
    ensures emotion != Neutral ==> LipSyncWeight(emotion, value) <= 0.25
    ensures emotion != Neutral ==> 2.0 * LipSyncWeight(emotion, value) == LipSyncWeight(Neutral, value)
  {
  }

  /** `update(delta)`. */
  function Update(c: Controller, delta: real): (d: Controller)
    ensures d.emotion == c.emotion && d.lipSync == c.lipSync && d.pending == c.pending
    ensures d.hasExpressionManager == c.hasExpressionManager && d.transitions == c.transitions
    ensures d.blinkCalls == c.blinkCalls + (if c.hasExpressionManager then [Advance(delta)] else [])
    ensures |c.writes| <= |d.writes| <= |c.writes| + 1 && d.writes[..|c.writes|] == c.writes
    ensures |d.writes| == |c.writes| + 1 <==> c.hasExpressionManager && c.lipSync.Some?
    ensures |d.writes| == |c.writes| + 1 ==>
              d.writes[|c.writes|].name == c.lipSync.value.preset
              && (c.emotion == Neutral ==> d.writes[|c.writes|].weight == c.lipSync.value.value * 0.5)
              && (c.emotion != Neutral ==> d.writes[|c.writes|].weight == c.lipSync.value.value * 0.25)
  {
    var blinked := CallBlink(c, Advance(delta));
    match c.lipSync
    case None => blinked
    case Some(entry) => SetValue(blinked, entry.preset, LipSyncWeight(c.emotion, entry.value))
  }

  /** The event loop running the `setTimeout` callback `pending[k]`:
      `_expressionManager?.setValue(preset, 1)`. Timers may run in any order. */
  function Fire(c: Controller, k: nat): (d: Controller)
    requires k < |c.pending|
    ensures d.pending == c.pending[..k] + c.pending[k + 1..]
    ensures d.emotion == c.emotion && d.lipSync == c.lipSync && d.blinkCalls == c.blinkCalls
    ensures d.hasExpressionManager == c.hasExpressionManager && d.transitions == c.transitions
    ensures d.writes == c.writes + (if c.hasExpressionManager then [Write(c.pending[k].name, c.pending[k].weight)] else [])
  {
    var p := c.pending[k];
    SetValue(c.(pending := c.pending[..k] + c.pending[k + 1..]), p.name, p.weight)
  }

  /* ================================================================ the sink */

  /** The weight the controller's own `writes` leave for `name`: the last write wins, and
      a name never written holds 0. Writes of the blink collaborator are not included. */
  function SinkWeight(writes: seq<Write>, name: Preset): (weight: real)
  {
    if |writes| == 0 then 0.0
    else if writes[|writes| - 1].name == name then writes[|writes| - 1].weight
    else SinkWeight(writes[..|writes| - 1], name)
  }

  /** Switching emotion zeroes the previous one in the sink at once. */
  lemma PlayEmotionZeroesPrevious(c: Controller, preset: Preset, blinkRemaining: real)
    requires c.hasExpressionManager && c.emotion != Neutral
    ensures SinkWeight(PlayEmotion(c, preset, blinkRemaining).writes, c.emotion) == 0.0
  {
    var d := PlayEmotion(c, preset, blinkRemaining);
    assert d.writes == c.writes + [Write(c.emotion, 0.0)];
  }

  /** Replacing a lip-sync entry zeroes the old entry's preset in the sink. */
  lemma LibSyncZeroesPrevious(c: Controller, preset: Preset, value: real)
    requires c.hasExpressionManager && c.lipSync.Some?
    ensures SinkWeight(LibSync(c, preset, value).writes, c.lipSync.value.preset) == 0.0
  {
    var d := LibSync(c, preset, value);
    assert d.writes == c.writes + [Write(c.lipSync.value.preset, 0.0)];
  }

  /** After `update` the sink holds the damped lip-sync weight for the entry's preset,
      in [0, 0.5], and in [0, 0.25] while a non-neutral emotion is current, when the value
      is in [0, 1]. */
  lemma UpdateDampsLipSync(c: Controller, delta: real)
    requires c.hasExpressionManager && c.lipSync.Some?
    requires 0.0 <= c.lipSync.value.value <= 1.0
    ensures var w := SinkWeight(Update(c, delta).writes, c.lipSync.value.preset);
            && 0.0 <= w <= 0.5
            && (c.emotion != Neutral ==> w <= 0.25)
            && w == LipSyncWeight(c.emotion, c.lipSync.value.value)
  {
    var e := c.lipSync.value;
    assert Update(c, delta).writes == c.writes + [Write(e.preset, LipSyncWeight(c.emotion, e.value))];
    LipSyncWeightBounds(c.emotion, e.value);
  }

  /** Without a lip-sync entry, `update` writes nothing. */
  lemma UpdateWithoutLipSyncIsSilent(c: Controller, delta: real)
    requires c.lipSync.None?
    ensures Update(c, delta).writes == c.writes
  {
  }

  /** A second `playEmotion('neutral')` writes and schedules nothing; it only asks the
      blink collaborator to stay enabled. */
  lemma NeutralTwiceIsQuiet(c: Controller, r1: real, r2: real)
    ensures var once := PlayEmotion(c, Neutral, r1);
            var twice := PlayEmotion(once, Neutral, r2);
            && twice.writes == once.writes
            && twice.pending == once.pending
            && twice.emotion == once.emotion == Neutral
            && twice.lipSync == once.lipSync
  {
  }

  /* ================================================================ runs */

  /** A command from outside: the three public calls, and the event loop running timer k
      (ignored when there is no timer k). */
  datatype Command =
    | PlayEmotionCmd(preset: Preset, blinkRemaining: real)
    | LibSyncCmd(preset: Preset, value: real)
    | UpdateCmd(delta: real)
    | FireCmd(k: nat)

  function Step(c: Controller, cmd: Command): (d: Controller)
  {
    match cmd
    case PlayEmotionCmd(p, r) => PlayEmotion(c, p, r)
    case LibSyncCmd(p, v) => LibSync(c, p, v)
    case UpdateCmd(dt) => Update(c, dt)
    case FireCmd(k) => if k < |c.pending| then Fire(c, k) else c
  }

  function Run(c: Controller, cmds: seq<Command>): (d: Controller)
    decreases |cmds|
  {
    if |cmds| == 0 then c else Run(Step(c, cmds[0]), cmds[1..])
  }

  /** Every step keeps the controller valid. */
  lemma StepPreservesValid(c: Controller, cmd: Command)
    requires Valid(c)
    ensures Valid(Step(c, cmd))
    ensures Step(c, cmd).hasExpressionManager == c.hasExpressionManager
    ensures |c.writes| <= |Step(c, cmd).writes| && Step(c, cmd).writes[..|c.writes|] == c.writes
  {
    match cmd
    case PlayEmotionCmd(p, r) =>
    case LibSyncCmd(p, v) =>
    case UpdateCmd(dt) =>
    case FireCmd(k) =>
      if k < |c.pending| {
        var d := Fire(c, k);
        forall j | 0 <= j < |d.pending|
          ensures d.pending[j] in c.pending
        {
          if j < k { assert d.pending[j] == c.pending[j]; }
          else { assert d.pending[j] == c.pending[j + 1]; }
        }
      }
  }

  /** Any run from a valid controller stays valid and only appends to the write log. */
  lemma {:induction false} RunPreservesValid(c: Controller, cmds: seq<Command>)
    requires Valid(c)
    ensures Valid(Run(c, cmds))
    ensures Run(c, cmds).hasExpressionManager == c.hasExpressionManager
    ensures |c.writes| <= |Run(c, cmds).writes| && Run(c, cmds).writes[..|c.writes|] == c.writes
    decreases |cmds|
  {
    if |cmds| > 0 {
      var next := Step(c, cmds[0]);
      StepPreservesValid(c, cmds[0]);
      RunPreservesValid(next, cmds[1..]);
      var w := Run(c, cmds).writes;
      assert w[..|next.writes|][..|c.writes|] == w[..|c.writes|];
    }
  }

  /** Running two command lists one after the other is running their concatenation. */
  lemma {:induction false} RunConcat(c: Controller, first: seq<Command>, rest: seq<Command>)
    ensures Run(c, first + rest) == Run(Run(c, first), rest)
    decreases |first|
  {
    if |first| == 0 {
      assert first + rest == rest;
    } else {
      assert (first + rest)[1..] == first[1..] + rest;
      RunConcat(Step(c, first[0]), first[1..], rest);
    }
  }

  /** With no expression manager, nothing ever reaches a sink and every emotion timer has
      delay 0, whatever is called, while emotion and lip-sync state still follow the calls. */
  lemma NoManagerNoWrites(cmds: seq<Command>)
    ensures Run(New(false), cmds).writes == []
    ensures forall k :: 0 <= k < |Run(New(false), cmds).pending| ==> Run(New(false), cmds).pending[k].delayMs == 0.0
  {
    RunPreservesValid(New(false), cmds);
  }

  /** Without a manager the emotion and lip-sync entry still track the calls. */
  lemma NoManagerStillTracksState(preset: Preset, lip: Preset, value: real, r: real)
    ensures var c := LibSync(PlayEmotion(New(false), preset, r), lip, value);
            c.emotion == preset && c.lipSync == Some(LipSyncEntry(lip, value)) && c.writes == []
  {
  }

  /* ================================================================ scenarios */

  /** 0.8 on 'aa' writes 0.4 while neutral is current; after switching to 'angry' the
      same entry writes 0.2. */
  lemma LipSyncUnderEmotionScenario()
    ensures var c1 := Update(LibSync(New(true), "aa", 0.8), 0.016);
            && c1.writes == [Write("aa", 0.4)]
            && var c2 := Update(PlayEmotion(c1, "angry", 0.0), 0.016);
               c2.writes == [Write("aa", 0.4), Write("aa", 0.2)]
  {
  }

  /** Moving lip-sync from 'aa' to 'ih' zeroes 'aa' before 'ih' is written. */
  lemma LipSyncHandOverScenario()
    ensures var c := Update(LibSync(LibSync(New(true), "aa", 0.8), "ih", 0.6), 0.016);
            c.writes == [Write("aa", 0.0), Write("ih", 0.3)]
  {
  }

  /** 'happy' with 0.2 s of blink left waits 200 ms: nothing is written at once, and when
      the timer runs the sink holds 1 for 'happy'. */
  lemma DelayedEmotionScenario()
    ensures var c := PlayEmotion(New(true), "happy", 0.2);
            && c.writes == []
            && c.pending == [Deferred(200.0, "happy", 1.0, 1)]
            && SinkWeight(Fire(c, 0).writes, "happy") == 1.0
  {
  }
}

=== FILE: lip_sync.dfy ===
/** The `LipSync` audio object: the peak-amplitude envelope with its noise gate that
    `update` reads from the analyser window, the playback router `playFromArrayBuffer`
    with its raw PCM16 path and its catch-all completion callback, and the unused
    `detectPCM16` plausibility heuristic.

    Web Audio (the analyser, `decodeAudioData`, buffer sources and their `ended` event)
    is outside the model: the analyser window and the decoder's answer are parameters,
    and a failure of the audio graph is a flag. */
module LipSync {
  import opened Options
  import opened Pcm16

  /* ================================================================ envelope */

  /** Length of the analyser's time-domain window. */
  const WindowLength: nat := 2048

  /** Squashed volumes strictly below this are reported as silence. */
  const GateThreshold: real := 0.1

  function Abs(x: real): (r: real)
    ensures 0.0 <= r && (r == x || r == -x)
  {
    if x < 0.0 then -x else x
  }

  function Max(a: real, b: real): (r: real)
    ensures a <= r && b <= r && (r == a || r == b)
  {
    if a < b then b else a
  }

  /** Peak absolute amplitude of a window: the running maximum of |w[i]|, starting
      from 0 and folding left to right. */
  function Peak(w: seq<real>): (a: real)
    ensures 0.0 <= a
    ensures forall i :: 0 <= i < |w| ==> Abs(w[i]) <= a
    ensures a == 0.0 || exists j :: 0 <= j < |w| && a == Abs(w[j])
    decreases |w|
  {
    if |w| == 0 then 0.0 else Max(Peak(w[..|w| - 1]), Abs(w[|w| - 1]))
  }

  /** The peak is zero exactly when every sample is zero. */
  lemma PeakZeroIffSilent(w: seq<real>)
    ensures Peak(w) == 0.0 <==> forall i :: 0 <= i < |w| ==> w[i] == 0.0
  {
    if Peak(w) != 0.0 {
      var j :| 0 <= j < |w| && Peak(w) == Abs(w[j]);
      assert w[j] != 0.0;
    }
  }

  /** A window whose every sample is at least as loud has at least the same peak. */
  lemma PeakMonotone(v: seq<real>, w: seq<real>)
    requires |v| == |w|
    requires forall i :: 0 <= i < |v| ==> Abs(v[i]) <= Abs(w[i])
    ensures Peak(v) <= Peak(w)
  {
    if Peak(v) != 0.0 {
      var j :| 0 <= j < |v| && Peak(v) == Abs(v[j]);
      assert Abs(w[j]) <= Peak(w);
    }
  }

  /** The noise gate: a squashed volume below the threshold becomes exactly 0,
      anything else passes unchanged. */
  function Gate(v: real): (g: real)
    ensures g == 0.0 || (GateThreshold <= g && g == v)
    ensures GateThreshold <= v ==> g == v
  {
    if v < GateThreshold then 0.0 else v
  }

  /** The gate never reorders two volumes. */
  lemma GateMonotone(u: real, v: real)
    requires u <= v
    ensures Gate(u) <= Gate(v)
  {
  }

  /** What the model assumes of the logistic `1 / (1 + exp(-45 a + 5))`: its values lie
      strictly between 0 and 1 and it never decreases. */
  ghost predicate IsSquash(squash: real -> real)
  {
    && (forall x :: 0.0 < squash(x) < 1.0)
    && (forall x, y :: x <= y ==> squash(x) <= squash(y))
  }

  /** The logistic at a zero peak, 1 / (1 + e^5), is about 0.0067: below the gate. */
  ghost predicate QuietAtSilence(squash: real -> real)
  {
    squash(0.0) < GateThreshold
  }

  /** The reference volume of a window: gate(squash(peak)). */
  function Volume(w: seq<real>, squash: real -> real): (v: real)
    ensures v == 0.0 || GateThreshold <= v
  {
    Gate(squash(Peak(w)))
  }

  /** `update`: scan the 2048-sample window for its peak, squash it, gate it. */
  method Update(window: seq<real>, squash: real -> real) returns (volume: real)
    requires |window| == WindowLength
    ensures volume == Volume(window, squash)
    ensures volume == 0.0 <==> squash(Peak(window)) < GateThreshold
    ensures volume != 0.0 ==> GateThreshold <= volume
  {
    var peak := 0.0;
    var i := 0;
    while i < WindowLength
      invariant 0 <= i <= WindowLength
      invariant peak == Peak(window[..i])
    {
      assert window[..i + 1][..i] == window[..i];
      peak := Max(peak, Abs(window[i]));
      i := i + 1;
    }
    assert window[..WindowLength] == window;
    volume := squash(peak);
    if volume < GateThreshold {
      volume := 0.0;
    }
  }

  /** Under the squash assumptions the gated volume is 0 or in [0.1, 1). */
  lemma VolumeRange(w: seq<real>, squash: real -> real)
    requires IsSquash(squash)
    ensures Volume(w, squash) == 0.0 || GateThreshold <= Volume(w, squash) < 1.0
    ensures 0.0 <= Volume(w, squash) <= 1.0
  {
    assert 0.0 < squash(Peak(w)) < 1.0;
  }

  /** An all-zero window reads as exactly 0. */
  lemma SilentWindowIsZero(w: seq<real>, squash: real -> real)
    requires QuietAtSilence(squash)
    requires forall i :: 0 <= i < |w| ==> w[i] == 0.0
    ensures Volume(w, squash) == 0.0
  {
    PeakZeroIffSilent(w);
  }

  /** Louder windows never read as quieter. */
  lemma VolumeMonotone(v: seq<real>, w: seq<real>, squash: real -> real)
    requires IsSquash(squash)
    requires |v| == |w|
    requires forall i :: 0 <= i < |v| ==> Abs(v[i]) <= Abs(w[i])
    ensures Volume(v, squash) <= Volume(w, squash)
  {
    PeakMonotone(v, w);
    assert squash(Peak(v)) <= squash(Peak(w));
    GateMonotone(squash(Peak(v)), squash(Peak(w)));
  }

  /* ================================================================ playback */

  /** The `buffer` argument: an `ArrayBuffer`, or any other value (the parameter is
      typed, but JavaScript callers can pass anything). */
  datatype Input = ArrayBuffer(bytes: seq<Byte>) | OtherValue

  /** A Web Audio `AudioBuffer`: samples per channel and a sample rate. */
  datatype AudioBuffer = AudioBuffer(channels: seq<seq<real>>, sampleRate: real)

  /** Why a call ended in the catch block. */
  datatype PlayError =
    | NotAnArrayBuffer
    | EmptyBuffer
    | OddByteLength    // `new Int16Array(buffer)` throws a RangeError
    | DecodeFailed
    | AudioGraphFailed // `createBuffer` (raw path) or creating, connecting or starting the source threw

  /** How `playFromArrayBuffer` ended. `Started`: the buffer plays to both the speakers
      and the analyser, and `onEnded` is attached to the source's `ended` event when
      given. `Failed`: nothing plays, and `onEnded` was invoked `endedCalls` times. */
  datatype PlayOutcome =
    | Started(buffer: AudioBuffer, endedListener: bool)
    | Failed(error: PlayError, endedCalls: nat)

  /** The number of times `onEnded` runs for an outcome, counting the single `ended`
      event of a source that plays to its natural end. */
  function CompletionCalls(r: PlayOutcome): (calls: nat)
  {
    match r
    case Started(_, listener) => if listener then 1 else 0
    case Failed(_, calls) => calls
  }

  /** The conversion loop of the raw path. */
  method ConvertPcm16(samples: seq<Int16>) returns (floats: seq<real>)
    ensures |floats| == |samples|
    ensures forall i :: 0 <= i < |samples| ==> floats[i] == ToFloat(samples[i])
    ensures forall i :: 0 <= i < |samples| ==> -1.0 <= floats[i] <= 1.0 && (floats[i] < 0.0 <==> samples[i] < 0)
  {
    floats := [];
    var i := 0;
    while i < |samples|
      invariant 0 <= i <= |samples|
      invariant |floats| == i
      invariant forall k :: 0 <= k < i ==> floats[k] == ToFloat(samples[k])
    {
      floats := floats + [if samples[i] < 0 then samples[i] as real / NegativeScale else samples[i] as real / PositiveScale];
      i := i + 1;
    }
  }

  /** `playFromArrayBuffer(buffer, onEnded, isNeedDecode, sampleRate)`. `decode` is the
      answer `decodeAudioData` would give for the bytes, and `graphFails` says whether
      `createBuffer` (on the raw path) or creating, connecting or starting the buffer
      source throws. */
  method PlayFromArrayBuffer(input: Input, hasOnEnded: bool, needsDecode: bool, sampleRate: real,
                             decode: seq<Byte> -> Option<AudioBuffer>, graphFails: bool)
    returns (r: PlayOutcome)
    ensures CompletionCalls(r) == if hasOnEnded then 1 else 0
    ensures r.Started? ==> r.endedListener == hasOnEnded
    ensures input.OtherValue? ==> r.Failed? && r.error == NotAnArrayBuffer
    ensures input.ArrayBuffer? && |input.bytes| == 0 ==> r.Failed? && r.error == EmptyBuffer
    ensures input.ArrayBuffer? && |input.bytes| > 0 && !needsDecode && |input.bytes| % 2 == 1 ==>
              r.Failed? && r.error == OddByteLength
    ensures input.ArrayBuffer? && |input.bytes| > 0 && needsDecode && decode(input.bytes).None? ==>
              r.Failed? && r.error == DecodeFailed
    ensures r.Started? <==>
              && input.ArrayBuffer? && |input.bytes| > 0
              && (if needsDecode then decode(input.bytes).Some? else |input.bytes| % 2 == 0)
              && !graphFails
    ensures r.Started? && needsDecode ==> r.buffer == decode(input.bytes).value
    ensures r.Started? && !needsDecode ==>
              && |r.buffer.channels| == 1
              && |r.buffer.channels[0]| == |input.bytes| / 2
              && r.buffer.sampleRate == sampleRate
              && forall i :: 0 <= i < |input.bytes| / 2 ==>
                   r.buffer.channels[0][i] == ToFloat(FromLittleEndian(input.bytes[2 * i], input.bytes[2 * i + 1]))
  {
    var failure: Option<PlayError> := None;
    var audio := AudioBuffer([], sampleRate);
    if input.OtherValue? {
      failure := Some(NotAnArrayBuffer);
    } else if |input.bytes| == 0 {
      failure := Some(EmptyBuffer);
    } else if !needsDecode {
      var view := Int16View(input.bytes);
      if view.None? {
        failure := Some(OddByteLength);
      } else {
        var floats := ConvertPcm16(view.value);
        audio := AudioBuffer([floats], sampleRate);
      }
    } else {
      var decoded := decode(input.bytes);
      if decoded.None? {
        failure := Some(DecodeFailed);
      } else {
        audio := decoded.value;
      }
    }
    if failure.None? && graphFails {
      failure := Some(AudioGraphFailed);
    }
    if failure.Some? {
      r := Failed(failure.value, if hasOnEnded then 1 else 0);
    } else {
      r := Started(audio, hasOnEnded);
    }
  }

  /* ================================================================ detectPCM16 */

  /** How many leading samples the heuristic inspects. */
  const DetectLimit: nat := 1000

  function Min(a: nat, b: nat): (m: nat)
    ensures m <= a && m <= b && (m == a || m == b)
  {
    if a < b then a else b
  }

  /** Number of non-zero samples: the reference count the heuristic's loop computes. */
  function NonZeroCount(s: seq<int>): (n: nat)
    ensures n <= |s|
  {
    if |s| == 0 then 0 else NonZeroCount(s[..|s| - 1]) + (if s[|s| - 1] != 0 then 1 else 0)
  }

  /** A sequence of zeros has no non-zero sample. */
  lemma {:induction false} NonZeroCountOfZeros(s: seq<int>)
    requires forall i :: 0 <= i < |s| ==> s[i] == 0
    ensures NonZeroCount(s) == 0
  {
    if |s| > 0 {
      NonZeroCountOfZeros(s[..|s| - 1]);
    }
  }

  /** Some non-zero sample means a positive count. */
  lemma {:induction false} NonZeroCountPositive(s: seq<int>, j: nat)
    requires j < |s| && s[j] != 0
    ensures NonZeroCount(s) > 0
  {
    if j < |s| - 1 {
      NonZeroCountPositive(s[..|s| - 1], j);
    }
  }

  /** The heuristic's verdict on a buffer: an even byte length, and more than 10% of the
      first min(1000, n) int16 samples non-zero. The in-range test is absent because an
      int16 sample is always within [-32768, 32767]. */
  predicate Pcm16Plausible(bytes: seq<Byte>)
  {
    && |bytes| % 2 == 0
    && var samples := Int16View(bytes).value;
       var n := Min(DetectLimit, |samples|);
       10 * NonZeroCount(samples[..n]) > n
  }

  /** `detectPCM16`: the range scan (which cannot fail on int16 values), the count of
      non-zero samples, and the comparison `nonZeroCount > min(1000, n) * 0.1`. */
  method DetectPcm16(bytes: seq<Byte>) returns (plausible: bool)
    ensures plausible <==> Pcm16Plausible(bytes)
    ensures |bytes| % 2 == 1 ==> !plausible
  {
    if |bytes| % 2 != 0 {
      return false;
    }
    var samples := Int16View(bytes).value;
    var n := Min(DetectLimit, |samples|);

    var isWithinRange := true;
    var i := 0;
    while i < n
      invariant 0 <= i <= n
      invariant isWithinRange
    {
      if samples[i] < -32768 || samples[i] > 32767 {
        isWithinRange := false;
        break;
      }
      i := i + 1;
    }

    var nonZeroCount := 0;
    i := 0;
    while i < n
      invariant 0 <= i <= n
      invariant nonZeroCount == NonZeroCount(samples[..i])
    {
      assert samples[..i + 1][..i] == samples[..i];
      if samples[i] != 0 {
        nonZeroCount := nonZeroCount + 1;
      }
      i := i + 1;
    }

    var hasReasonableDistribution := nonZeroCount as real > n as real * 0.1;
    plausible := isWithinRange && hasReasonableDistribution;
  }

  /** An empty or all-zero buffer is never judged to be PCM16. */
  lemma SilenceIsNotPcm16(bytes: seq<Byte>)
    requires forall i :: 0 <= i < |bytes| ==> bytes[i] == 0
    ensures !Pcm16Plausible(bytes)
  {
    if |bytes| % 2 == 0 {
      var samples := Int16View(bytes).value;
      var n := Min(DetectLimit, |samples|);
      forall i | 0 <= i < n
        ensures samples[..n][i] == 0
      {
        assert samples[i] == FromLittleEndian(bytes[2 * i], bytes[2 * i + 1]);
      }
      NonZeroCountOfZeros(samples[..n]);
    }
  }

  /** In a buffer of fewer than ten samples, one non-zero sample is enough for the verdict. */
  lemma ShortBufferWithSignalIsPcm16(bytes: seq<Byte>, j: nat)
    requires |bytes| % 2 == 0 && |bytes| < 20
    requires j < |bytes| / 2 && Int16View(bytes).value[j] != 0
    ensures Pcm16Plausible(bytes)
  {
    var samples := Int16View(bytes).value;
    assert samples[..|samples|] == samples;
    NonZeroCountPositive(samples, j);
  }

  /** Bytes beyond the first 2000 (samples beyond index 999) never change the verdict. */
  lemma DetectIgnoresTail(bytes: seq<Byte>)
    requires |bytes| % 2 == 0 && |bytes| >= 2 * DetectLimit
    ensures Pcm16Plausible(bytes) == Pcm16Plausible(bytes[..2 * DetectLimit])
  {
    var head := bytes[..2 * DetectLimit];
    var s := Int16View(bytes).value;
    var t := Int16View(head).value;
    assert s[..DetectLimit] == t[..DetectLimit] by {
      forall i | 0 <= i < DetectLimit
        ensures s[i] == t[i]
      {
        assert head[2 * i] == bytes[2 * i] && head[2 * i + 1] == bytes[2 * i + 1];
      }
    }
  }
}

=== FILE: options.dfy ===
/** The optional-value type shared by the audio and expression models: a value that
    may be absent, like a TypeScript `T | null` or an optional collaborator. */
module Options {

  datatype Option<+T> = None | Some(value: T)
}

=== FILE: pcm16.dfy ===
/** Signed 16-bit PCM as the raw playback path sees it: an `Int16Array` view over the
    bytes of an `ArrayBuffer` (little-endian, as on every mainstream platform), and the
    asymmetric scaling of each sample into a floating-point value in [-1, 1].
    Floating point is modelled by exact reals; Float32 rounding is not modelled. */
module Pcm16 {
  import opened Options

  /** One byte of an `ArrayBuffer`. */
  type Byte = b: int | 0 <= b < 256

  /** A value an `Int16Array` element can hold. */
  type Int16 = x: int | -32768 <= x <= 32767

  const MinInt16: Int16 := -32768
  const MaxInt16: Int16 := 32767

  /** Divisors of the conversion: negative samples scale by 2^15, the others by 2^15 - 1,
      so that both extremes land exactly on -1 and 1. */
  const NegativeScale: real := 32768.0
  const PositiveScale: real := 32767.0

  /* ---------------------------------------------------------------- bytes <-> int16 */

  /** The two's-complement int16 stored little-endian in the byte pair (lo, hi). */
  function FromLittleEndian(lo: Byte, hi: Byte): (x: Int16)
    ensures x < 0 <==> hi >= 128
    ensures x % 256 == lo
    ensures (x + 65536) % 65536 == lo as int + 256 * (hi as int)
  {
    var u := lo + 256 * hi;
    if u >= 32768 then u - 65536 else u
  }

  /** The little-endian byte pair storing x in two's complement. */
  function ToLittleEndian(x: Int16): (pair: seq<Byte>)
    ensures |pair| == 2
    ensures pair[1] >= 128 <==> x < 0
    ensures pair[0] as int + 256 * (pair[1] as int) == (x + 65536) % 65536
  {
    var u := if x < 0 then x + 65536 else x;
    [u % 256, u / 256]
  }

  lemma DecodeEncodeSample(x: Int16)
    ensures FromLittleEndian(ToLittleEndian(x)[0], ToLittleEndian(x)[1]) == x
  {
  }

  lemma EncodeDecodeSample(lo: Byte, hi: Byte)
    ensures ToLittleEndian(FromLittleEndian(lo, hi)) == [lo, hi]
  {
  }

  /** `new Int16Array(buffer)`: one sample per byte pair, or nothing when the byte
      length is odd (the constructor throws a RangeError then). */
  function Int16View(bytes: seq<Byte>): (r: Option<seq<Int16>>)
    ensures r.Some? <==> |bytes| % 2 == 0
    ensures r.Some? ==> |r.value| == |bytes| / 2
  {
    if |bytes| % 2 != 0 then None
    else Some(seq(|bytes| / 2, i requires 0 <= i < |bytes| / 2 => FromLittleEndian(bytes[2 * i], bytes[2 * i + 1])))
  }

  /** The bytes of an `Int16Array` holding `samples`: the inverse of `Int16View`. */
  function Int16Bytes(samples: seq<Int16>): (bytes: seq<Byte>)
    ensures |bytes| == 2 * |samples|
  {
    seq(2 * |samples|, j requires 0 <= j < 2 * |samples| => ToLittleEndian(samples[j / 2])[j % 2])
  }

  /** Viewing the bytes of any sample sequence gives back exactly that sequence. */
  lemma ViewOfBytes(samples: seq<Int16>)
    ensures Int16View(Int16Bytes(samples)) == Some(samples)
  {
    var bytes := Int16Bytes(samples);
    var view := Int16View(bytes).value;
    forall i | 0 <= i < |samples|
      ensures view[i] == samples[i]
    {
      assert (2 * i) / 2 == i && (2 * i) % 2 == 0;
      assert (2 * i + 1) / 2 == i && (2 * i + 1) % 2 == 1;
      assert bytes[2 * i] == ToLittleEndian(samples[i])[0];
      assert bytes[2 * i + 1] == ToLittleEndian(samples[i])[1];
      DecodeEncodeSample(samples[i]);
    }
    assert view == samples;
  }

  /** Every even-length buffer is the byte image of its own int16 view. */
  lemma BytesOfView(bytes: seq<Byte>)
    requires |bytes| % 2 == 0
    ensures Int16Bytes(Int16View(bytes).value) == bytes
  {
    var view := Int16View(bytes).value;
    var back := Int16Bytes(view);
    forall j | 0 <= j < |bytes|
      ensures back[j] == bytes[j]
    {
      var i := j / 2;
      assert 2 * i + j % 2 == j;
      EncodeDecodeSample(bytes[2 * i], bytes[2 * i + 1]);
    }
  }

  /* ---------------------------------------------------------------- int16 -> float */

  /** The per-sample conversion of the raw path: negative samples over 32768,
      non-negative ones over 32767. */
  function ToFloat(x: Int16): (f: real)
    ensures -1.0 <= f <= 1.0
    ensures f < 0.0 <==> x < 0
    ensures f == 0.0 <==> x == 0
    ensures x == MinInt16 ==> f == -1.0
    ensures x == MaxInt16 ==> f == 1.0
  {
    if x < 0 then x as real / NegativeScale else x as real / PositiveScale
  }

  /** The conversion is strictly increasing, so it is monotone and loses no sample. */
  lemma ToFloatStrictlyIncreasing(a: Int16, b: Int16)
    requires a < b
    ensures ToFloat(a) < ToFloat(b)
  {
  }

  /** A quantizer from [-1, 1] back to int16, rounding down on the same asymmetric scale. */
  function Quantize(f: real): (x: Int16)
    requires -1.0 <= f <= 1.0
    ensures x < 0 <==> f < 0.0
  {
    if f < 0.0 then
      var q := (f * NegativeScale).Floor;
      assert q as real <= f * NegativeScale < 0.0;
      q
    else
      var q := (f * PositiveScale).Floor;
      assert q as real <= f * PositiveScale <= PositiveScale;
      q
  }

  /** Quantizing a converted sample recovers the sample. */
  lemma QuantizeToFloat(x: Int16)
    ensures Quantize(ToFloat(x)) == x
  {
    if x < 0 {
      assert ToFloat(x) * NegativeScale == x as real;
    } else {
      assert ToFloat(x) * PositiveScale == x as real;
    }
  }

  /** Quantizing a value in [-1, 1] and converting it back lands within one quantization
      step below the value. */
  lemma ToFloatQuantizeWithinStep(f: real)
    requires -1.0 <= f <= 1.0
    ensures ToFloat(Quantize(f)) <= f
    ensures f - ToFloat(Quantize(f)) < 1.0 / PositiveScale
  {
    var q := Quantize(f);
    if f < 0.0 {
      assert q as real <= f * NegativeScale < q as real + 1.0;
      assert ToFloat(q) * NegativeScale == q as real;
    } else {
      assert q as real <= f * PositiveScale < q as real + 1.0;
      assert ToFloat(q) * PositiveScale == q as real;
    }
  }
}
